=== FILE: README.md ===
# Product API: services and controller

A model of the product and product-option REST API: the two services over
the persistent store and the controller that maps requests to them.

- The store is two tables, products and product options.
  Each table is a sequence of records in store order, keyed by a 128-bit
  identifier.
  `Find`, `Add`, `Remove` and `RemoveRange` follow the test doubles of the
  entity sets:
  - `Find` returns the first record with a key;
  - `Add` appends;
  - `Remove` deletes the first equal record;
  - `RemoveRange` removes each record in turn.

  `UpdateEntity` follows the context's `SetValues`: it overwrites the record
  in place.
- Every service operation is a pure function from the table and its
  arguments to a `Step`.
  A `Step` holds the table afterwards and a status: `Done`, or
  `Raised(failure)`.
  A failure has a kind: `GlobalErr` is the application's `GlobalException`;
  `OtherErr` is any other exception.
- The controller's eleven endpoints are functions of the path identifiers,
  the request body and both tables.
  The six endpoints that write return a `Reply`: a response and the tables
  afterwards.
  The five `GET` endpoints return only a response.
  A response is one of:
  - a status code (204, 400, 404);
  - a returned value;
  - an uncaught exception (an exception that is not a `GlobalException`
    escapes every `catch (GlobalException)` clause).
- The product service is modelled as written: `CreateProduct`, `UpdateProduct`
  and `DeleteProduct` follow the code, not the intent.
  Corrected versions of the three sit beside them (see Findings).
  The controller's product endpoints take a `Build` (`AsWritten` or
  `Corrected`), so both compositions are stated and proved.

Modules:

| file | module | contents |
|---|---|---|
| `common.dfy` | `Common` | identifiers, `Option`, failures, messages |
| `models.dfy` | `Models` | `Product`, `ProductOption`, keys |
| `seqs.dfy` | `Seqs` | order-preserving filter, first index, removal |
| `data_context.dfy` | `DataContext` | table operations, key uniqueness |
| `text.dfy` | `Text` | ASCII lower-casing, substring search |
| `product_option_service.dfy` | `ProductOptionService` | the option service |
| `product_service.dfy` | `ProductService` | the product service, as written and corrected |
| `products_controller.dfy` | `ProductsController` | the eleven endpoints |

## Model

| member | source | states |
|---|---|---|
| DataContext.Find | ProductAPI.UnitTests/Services/ProductServiceTests.cs:57 | a record is found exactly when some record has the key; the found record is in the table and has that key |
| DataContext.Add | ProductAPI.UnitTests/Services/ProductServiceTests.cs:58 | the table grows by one: earlier records keep their positions and the added record is last |
| DataContext.UpdateEntity | refactor-me/Services/ProductDataContext.cs:20-23 | the record at the position takes every value of the modified record; all other positions are unchanged |
| DataContext.RemoveFound | ProductAPI.UnitTests/Services/ProductOptionServiceTests.cs:66 | removing the record `Find` returned deletes exactly its position and keeps the others in order |
| DataContext.FindUnique | ProductAPI.UnitTests/Services/ProductServiceTests.cs:57 | with unique keys, looking up any stored record's key returns that record |
| DataContext.SubsequenceKeepsUnique | ProductAPI.UnitTests/Services/ProductOptionServiceTests.cs:65 | keeping a subsequence of a table with unique keys keeps the keys unique |
| DataContext.MatchesOfKey | refactor-me/Services/ProductService.cs:48 | `SingleOrDefault` sees no match for an absent key, at least one for a present key, and at most one when keys are unique |
| Seqs.Filter | refactor-me/Services/ProductOptionService.cs:75 | the result keeps exactly the elements that satisfy the predicate, each drawn from the input |
| Seqs.FilterIsSubsequence | refactor-me/Services/ProductOptionService.cs:75 | the filtered list keeps the store order |
| Seqs.RemoveEachOfFilter | refactor-me/Services/ProductOptionService.cs:67-69 | removing the listed matches one at a time leaves exactly the non-matching records, in order |
| Text.Lower | refactor-me/Services/ProductService.cs:68 | lower-casing keeps the length and maps 'A'..'Z' to 'a'..'z' character by character |
| Text.ContainsIffOccurs | refactor-me/Services/ProductService.cs:68 | the substring scan succeeds exactly when the query occurs at some position of the name |
| ProductOptionService.Create | refactor-me/Services/ProductOptionService.cs:21-38 | a duplicate identifier raises "Duplicate Product Option Id found." and leaves the table unchanged; otherwise one record is appended; it equals the input except that an empty identifier is replaced by the new one |
| ProductOptionService.Update | refactor-me/Services/ProductOptionService.cs:40-52 | an absent identifier raises "Product Option not available." with the table unchanged; otherwise the length is kept, lookup returns the new option, and records with other identifiers are untouched |
| ProductOptionService.DeleteById | refactor-me/Services/ProductOptionService.cs:54-63 | an absent identifier raises "Product Option not available." with the table unchanged; otherwise exactly the found record's position is removed, as a multiset equation too; with unique keys the identifier is gone afterwards |
| ProductOptionService.DeleteByProductId | refactor-me/Services/ProductOptionService.cs:65-71 | never fails; the result is the options of other products, in store order, and every such option survives |
| ProductOptionService.GetOptionsByProductId | refactor-me/Services/ProductOptionService.cs:73-77 | an option is returned exactly when it belongs to the product, in store order |
| ProductOptionService.GetSingleOptionByProductId | refactor-me/Services/ProductOptionService.cs:79-83 | the returned option is stored and matches both identifiers; none is returned exactly when no option matches both |
| ProductOptionService.CreateKeepsUniqueIds | refactor-me/Services/ProductOptionService.cs:21-38 | creation keeps option identifiers unique when the generated identifier is new |
| ProductOptionService.UpdateKeepsUniqueIds | refactor-me/Services/ProductOptionService.cs:40-52 | an update keeps option identifiers unique |
| ProductOptionService.DeleteByIdKeepsUniqueIds | refactor-me/Services/ProductOptionService.cs:54-63 | a delete by identifier keeps option identifiers unique |
| ProductOptionService.DeleteByProductIdKeepsUniqueIds | refactor-me/Services/ProductOptionService.cs:65-71 | the cascading delete keeps option identifiers unique |
| ProductOptionService.CreateThenGet | refactor-me/Services/ProductOptionService.cs:21-38 | a created option is read back under its product and stored identifier |
| ProductOptionService.UpdateIdempotent | refactor-me/Services/ProductOptionService.cs:40-52 | updating twice with the same option equals updating once |
| ProductOptionService.UpdateThenGet | refactor-me/Services/ProductOptionService.cs:40-52 | after an update of a stored option the two-key lookup returns the new option |
| ProductOptionService.DeleteThenGet | refactor-me/Services/ProductOptionService.cs:54-63 | with unique keys, after a delete (of a stored or a missing identifier) no option with that identifier can be read back under any product |
| ProductOptionService.DeleteByProductIdIdempotent | refactor-me/Services/ProductOptionService.cs:65-71 | the cascading delete is idempotent, and afterwards the product has no options |
| ProductOptionService.DeleteByProductIdPartition | refactor-me/Services/ProductOptionService.cs:65-77 | the options listed for a product and those the cascading delete keeps together account for the whole table |
| ProductOptionService.GetSingleIsFindWithinProduct | refactor-me/Services/ProductOptionService.cs:79-83 | with unique keys, the two-key lookup is the key lookup restricted to the product |
| ProductService.CreateProduct | refactor-me/Services/ProductService.cs:17-32 | never changes the table and always raises a non-`GlobalException`: "Duplicate Product Id found." for any product, a null dereference for null |
| ProductService.DeleteProduct | refactor-me/Services/ProductService.cs:34-44 | an absent identifier raises a non-`GlobalException` "Product not available." with the table unchanged; otherwise exactly the found position is removed; with unique keys the table keeps them unique and a later lookup returns none |
| ProductService.RemoveProduct | refactor-me/Services/ProductService.cs:34-44 | the same deletion with the raised exception's kind as a parameter |
| ProductService.UpdateProduct | refactor-me/Services/ProductService.cs:46-57 | never changes the table; an absent identifier raises "Product not available."; a present identifier with unique keys succeeds; every exception raised is not a `GlobalException` |
| ProductService.GetProductById | refactor-me/Services/ProductService.cs:59-64 | a product is returned exactly when one has the identifier, and it is stored under it |
| ProductService.GetProductByName | refactor-me/Services/ProductService.cs:66-72 | a product is returned exactly when its lower-cased name contains the lower-cased query, in store order |
| ProductService.GetProducts | refactor-me/Services/ProductService.cs:74-79 | returns every stored product in store order; its length is the table size |
| ProductService.CreateProductCorrected | refactor-me/Services/ProductService.cs:17-32 | a stored identifier raises a `GlobalException` "Duplicate Product Id found." with the table unchanged; otherwise the product is appended (an empty identifier replaced by the new one) and can be read back by identifier |
| ProductService.DeleteProductCorrected | refactor-me/Services/ProductService.cs:34-44 | an absent identifier raises a `GlobalException` "Product not available."; a present one deletes as the code does |
| ProductService.UpdateProductCorrected | refactor-me/Services/ProductService.cs:46-57 | an absent identifier raises a `GlobalException`; otherwise the length is kept, lookup returns the new values under the path identifier, and other products are untouched |
| ProductService.GetProductByIdFindsStored | refactor-me/Services/ProductService.cs:59-64 | with unique keys, every stored product is found by its identifier |
| ProductService.CreateProductKeepsUniqueIds | refactor-me/Services/ProductService.cs:17-32 | under either build, creation keeps product identifiers unique when the generated identifier is new |
| ProductService.UpdateProductKeepsUniqueIds | refactor-me/Services/ProductService.cs:46-57 | under either build, an update keeps product identifiers unique |
| ProductService.DeleteProductKeepsUniqueIds | refactor-me/Services/ProductService.cs:34-44 | under either build, a delete keeps product identifiers unique |
| ProductService.GetProductByNameIgnoresQueryCase | refactor-me/Services/ProductService.cs:66-72 | searching with the lower-cased query gives the same result |
| ProductService.EmptySearchIsGetProducts | refactor-me/Services/ProductService.cs:66-79 | the empty query returns every product, as `GetProducts` does |
| ProductService.SearchMatchesSubstringsIgnoringCase | refactor-me/Services/ProductService.cs:66-72 | "prod" finds "Product1", "Product2" and "MyProduct" but not "Gadget" |
| ProductService.CreateProductRejectsNewProduct | refactor-me/Services/ProductService.cs:19-23 | a product whose identifier is not stored is rejected as a duplicate as written, and appended by the corrected operation |
| ProductService.UpdateProductKeepsOldValues | refactor-me/Services/ProductService.cs:46-57 | updating "Product1" to "UpdatedProduct" leaves "Product1" stored as written, and stores "UpdatedProduct" when corrected |
| ProductsController.Catching | refactor-me/Controllers/ProductsController.cs:58-68 | inside a `catch (GlobalException)` handler: success answers 204, a `GlobalException` answers the handler's code, and any other exception escapes unchanged |
| ProductsController.Unguarded | refactor-me/Controllers/ProductsController.cs:51-52 | a service call with no handler: success, and only success, answers 204; every exception escapes unchanged |
| ProductsController.CreateProduct | refactor-me/Controllers/ProductsController.cs:29-41 | as written, every request escapes with a non-`GlobalException` and changes nothing; corrected, a null body escapes as a null dereference, a duplicate answers 400, and a new product answers 204 and is appended as the request body under its stored identifier (the new one when its own is empty) |
| ProductsController.UpdateProduct | refactor-me/Controllers/ProductsController.cs:45-53 | a body identifier other than the path's answers 400 before any service call; a missing product escapes; as written nothing changes; corrected, the product is read back with the new values, the length is kept and products with other identifiers are untouched |
| ProductsController.DeleteProduct | refactor-me/Controllers/ProductsController.cs:57-69 | a missing product changes nothing; it escapes as written and answers 400 corrected; otherwise 204, exactly the found product's position removed with the other products unchanged and in order, and exactly the other products' options kept in store order; with valid tables the product and its options are gone |
| ProductsController.GetAllProducts | refactor-me/Controllers/ProductsController.cs:73-76 | returns the product table unchanged |
| ProductsController.SearchByName | refactor-me/Controllers/ProductsController.cs:80-83 | returns a stored product exactly when its name contains the query ignoring case; every returned product is stored, in store order |
| ProductsController.GetProduct | refactor-me/Controllers/ProductsController.cs:87-96 | answers 404 exactly when no product has the identifier, and otherwise returns the stored product |
| ProductsController.CreateOption | refactor-me/Controllers/ProductsController.cs:104-114 | a body product identifier other than the path's answers 400 with nothing created; a duplicate escapes; a new option answers 204 and is appended as the request body under its stored identifier (the new one when its own is empty) |
| ProductsController.UpdateOption | refactor-me/Controllers/ProductsController.cs:118-135 | a mismatch of either identifier answers 400 before any service call; a missing option answers 400; otherwise 204, the option reads back, the length is kept and options with other identifiers are untouched |
| ProductsController.DeleteOptionById | refactor-me/Controllers/ProductsController.cs:139-150 | a missing option answers 404 with nothing changed; otherwise 204 and exactly that option's position is removed, the others kept in order, whatever product it belongs to |
| ProductsController.GetOptions | refactor-me/Controllers/ProductsController.cs:154-157 | returns a stored option exactly when it belongs to the product; every returned option is stored, in store order |
| ProductsController.GetOptionById | refactor-me/Controllers/ProductsController.cs:161-170 | answers 404 exactly when no option matches both identifiers, and otherwise returns the matching stored option |
| ProductsController.MissingOptionStatusesDiffer | refactor-me/Controllers/ProductsController.cs:118-150 | for a missing option the update answers 400 and the delete answers 404 |
| ProductsController.DeleteMissingProductEscapesHandler | refactor-me/Controllers/ProductsController.cs:57-69 | deleting a missing product escapes the handler as written and answers 400 corrected |
| ProductsController.DeleteProductCascades | refactor-me/Controllers/ProductsController.cs:57-69 | deleting a product with two options from a store with a second product leaves only the second product and its option |

## Left out

- Entity Framework is not modelled: context construction, change tracking and the connection string. `SaveChanges` commits and leaves the contents unchanged, so it does not appear.
- Object mapping (AutoMapper) is the identity: the persistence and transport shapes share one datatype, and null maps to null.
- Dependency injection and application start-up are not modelled. The product service creates its own context, but here both services take their table as an argument.
- `Guid.NewGuid()` is the argument `newId`. Uniqueness lemmas require it to be unused in the table.
- `ToLower()` is culture-sensitive in the source. It is modelled for ASCII letters only; every other character is kept.
- Null names and a null search query are not modelled; `Name` is always a string. A null description is modelled as `None`.
- Null arguments are modelled only where a branch depends on them: the product service's `CreateProduct` and the request bodies of the controller. Each gives a null dereference. Other service arguments are never null here.
- Prices are carried as decimal mantissa and scale; nothing computes with them.
- HTTP framework objects are a small response datatype. A 500 response is not modelled: an uncaught exception is left as `Uncaught(failure)`.
- `UpdateEntity` is the context's in-place `SetValues`. The unit tests' double removes the original and appends the modified record, which moves it to the end; that reordering is not modelled.
- DataContext.Remove and DataContext.RemoveRange: no contract of their own; their effect is stated by `RemoveFound`, `RemoveFirstAt` and `RemoveEachOfFilter`.
- ProductService.UpdateProduct: with more than one product under the identifier the model raises `SingleOrDefault`'s "Sequence contains more than one matching element". The contract states only that this failure is not a `GlobalException`.
- One controller test expects 404 for updating a missing option. It is not marked as a test method, and it contradicts the handler, which answers 400. The model follows the handler.

## Findings

| source | as written | input that shows it | evidently intended | confidence | as-written member | corrected member |
|---|---|---|---|---|---|---|
| refactor-me/Services/ProductService.cs:19-23 | the duplicate check tests the mapped input for null instead of looking the identifier up, so every non-null product is rejected as a duplicate | a product with an unused identifier, e.g. `{Id: new, Name: "Item"}` on the unit tests' two-product store (their test expects three products afterwards) | look the identifier up as the option service does; append when absent | high; not executed | ProductService.CreateProduct, shown by ProductService.CreateProductRejectsNewProduct | ProductService.CreateProductCorrected |
| refactor-me/Services/ProductService.cs:46-57 | `updatedProduct` is never read; the stored entity is marked modified and saved with its own values | store `[Product1]`, update to `{Id: same, Name: "UpdatedProduct"}` (the unit test expects the new name) | copy the new values onto the stored product | high; not executed | ProductService.UpdateProduct, shown by ProductService.UpdateProductKeepsOldValues | ProductService.UpdateProductCorrected |
| refactor-me/Services/ProductService.cs:40 | a missing product raises a plain `Exception`, which the controller's `catch (GlobalException)` does not catch | `DELETE /products/{id}` with an identifier that is not stored | raise `GlobalException`, so the controller answers 400 (the unit test catches `GlobalException`) | high; not executed | ProductService.DeleteProduct, shown by ProductsController.DeleteMissingProductEscapesHandler | ProductService.DeleteProductCorrected |

=== FILE: common.dfy ===
/** Identifiers, optional values and the failures the services raise. */
module Common {

  /** A 128-bit UUID, carried as its numeric value. */
  newtype Guid = x: int | 0 <= x < 0x1_0000_0000_0000_0000_0000_0000_0000_0000

  /** `Guid.Empty`, the all-zero identifier. */
  const EmptyGuid: Guid := 0

  /** A value that may be absent; `None` stands for a C# `null` reference. */
  datatype Option<+T> = None | Some(value: T)

  /** Which catch clause can see a failure: `GlobalErr` is the application's
      own `GlobalException`; `OtherErr` is any other exception type. */
  datatype ErrorKind = GlobalErr | OtherErr

  /** A thrown exception: its kind and its message. */
  datatype Failure = Failure(kind: ErrorKind, message: string)

  /** How a service call ended: normally, or by throwing. */
  datatype Status = Done | Raised(failure: Failure)

  /** A mutating service call: how it ended and the table it left behind. */
  datatype Step<S> = Step(status: Status, store: S)

  const DuplicateOptionMessage := "Duplicate Product Option Id found."
  const OptionNotAvailableMessage := "Product Option not available."
  const DuplicateProductMessage := "Duplicate Product Id found."
  const ProductNotAvailableMessage := "Product not available."
  /** Message of the runtime's `NullReferenceException`. */
  const NullReferenceMessage := "Object reference not set to an instance of an object."
  /** Message of the `InvalidOperationException` from `SingleOrDefault`. */
  const MoreThanOneMatchMessage := "Sequence contains more than one matching element"

  /** Dereferencing a null reference. */
  const NullReference := Failure(OtherErr, NullReferenceMessage)
}

=== FILE: data_context.dfy ===
/** The persistence gateway: a table is a sequence of records in store
    order, and `key` extracts a record's primary key. The operations follow
    the test doubles of the entity sets: `Find` is the first record with the
    key, `Add` appends, `Remove` deletes the first equal record, and
    `RemoveRange` removes each given record in turn. `UpdateEntity` copies
    every value of the modified record onto the stored one, in place.
    `SaveChanges` commits and has no effect on the contents. */
module DataContext {
  import opened Common
  import Seqs

  function KeyIs<T>(key: T -> Guid, k: Guid): T -> bool
  {
    x => key(x) == k
  }

  predicate HasKey<T>(t: seq<T>, key: T -> Guid, k: Guid)
  {
    exists i :: 0 <= i < |t| && key(t[i]) == k
  }

  /** The table's invariant: no two records share a primary key. */
  ghost predicate UniqueKeys<T>(t: seq<T>, key: T -> Guid)
  {
    forall i, j :: 0 <= i < |t| && 0 <= j < |t| && key(t[i]) == key(t[j]) ==> i == j
  }

  /** Position of the first record whose key is `k`. */
  function IndexOf<T>(t: seq<T>, key: T -> Guid, k: Guid): (r: Option<nat>)
    ensures r.Some? <==> HasKey(t, key, k)
    ensures r.Some? ==> r.value < |t| && key(t[r.value]) == k
    ensures r.Some? ==> forall j :: 0 <= j < r.value ==> key(t[j]) != k
  {
    Seqs.FirstIndex(t, KeyIs(key, k))
  }

  /** `DbSet.Find(k)`. */
  function Find<T>(t: seq<T>, key: T -> Guid, k: Guid): (r: Option<T>)
    ensures r.Some? <==> HasKey(t, key, k)
    ensures r.Some? ==> r.value in t && key(r.value) == k
  {
    match IndexOf(t, key, k)
    case None => None
    case Some(i) => Some(t[i])
  }

  /** `DbSet.Add(x)`. */
  function Add<T>(t: seq<T>, x: T): (r: seq<T>)
    ensures |r| == |t| + 1 && r[..|t|] == t && r[|t|] == x
  {
    t + [x]
  }

  /** `DbSet.Remove(x)`. */
  function Remove<T(==)>(t: seq<T>, x: T): seq<T>
  {
    Seqs.RemoveFirst(t, x)
  }

  /** `DbSet.RemoveRange(xs)`. */
  function RemoveRange<T(==)>(t: seq<T>, xs: seq<T>): seq<T>
  {
    Seqs.RemoveEach(t, xs)
  }

  /** `UpdateEntity(t[i], modified)`: the record at `i` takes every value of
      `modified`. */
  function UpdateEntity<T>(t: seq<T>, i: nat, modified: T): (r: seq<T>)
    requires i < |t|
    ensures |r| == |t| && r[i] == modified
    ensures forall j :: 0 <= j < |t| && j != i ==> r[j] == t[j]
  {
    t[i := modified]
  }

  /** Removing the record `Find` returned deletes exactly its position and
      keeps the order of the others. */
  lemma RemoveFound<T>(t: seq<T>, key: T -> Guid, k: Guid)
    requires HasKey(t, key, k)
    ensures Remove(t, Find(t, key, k).value)
         == t[..IndexOf(t, key, k).value] + t[IndexOf(t, key, k).value + 1..]
  {
    var i := IndexOf(t, key, k).value;
    forall j | 0 <= j < i
      ensures t[j] != t[i]
    {
      assert key(t[j]) != key(t[i]);
    }
    Seqs.RemoveFirstAt(t, i);
  }

  /** In a table with unique keys, `Find` returns the one record that has
      the key. */
  lemma FindUnique<T>(t: seq<T>, key: T -> Guid, i: nat)
    requires UniqueKeys(t, key) && i < |t|
    ensures IndexOf(t, key, key(t[i])) == Some(i)
    ensures Find(t, key, key(t[i])) == Some(t[i])
  {
  }

  lemma AddKeepsUnique<T>(t: seq<T>, key: T -> Guid, x: T)
    requires UniqueKeys(t, key) && !HasKey(t, key, key(x))
    ensures UniqueKeys(Add(t, x), key)
  {
    var r := Add(t, x);
    assert forall i :: 0 <= i < |t| ==> r[i] == t[i] && key(t[i]) != key(x);
  }

  /** Deleting one position keeps the keys unique, and the deleted record's
      key is gone from the table. */
  lemma DeleteAtKeepsUnique<T>(t: seq<T>, key: T -> Guid, i: nat)
    requires i < |t|
    ensures UniqueKeys(t, key) ==> UniqueKeys(t[..i] + t[i + 1..], key)
    ensures UniqueKeys(t, key) ==> !HasKey(t[..i] + t[i + 1..], key, key(t[i]))
  {
    var r := t[..i] + t[i + 1..];
    assert forall j :: 0 <= j < |r| ==> r[j] == t[if j < i then j else j + 1];
  }

  lemma UpdateKeepsUnique<T>(t: seq<T>, key: T -> Guid, i: nat, x: T)
    requires UniqueKeys(t, key) && i < |t| && key(x) == key(t[i])
    ensures UniqueKeys(UpdateEntity(t, i, x), key)
  {
  }

  /** A subsequence of a table with unique keys has unique keys. */
  lemma {:induction false} SubsequenceKeepsUnique<T>(r: seq<T>, t: seq<T>, key: T -> Guid)
    requires UniqueKeys(t, key) && Seqs.IsSubsequence(r, t)
    ensures UniqueKeys(r, key)
    ensures forall i :: 0 <= i < |r| ==> HasKey(t, key, key(r[i]))
    decreases |t|
  {
    if |r| > 0 {
      var t' := t[1..];
      assert UniqueKeys(t', key) by {
        assert forall j :: 0 <= j < |t'| ==> t'[j] == t[j + 1];
      }
      if r[0] == t[0] && Seqs.IsSubsequence(r[1..], t') {
        var r' := r[1..];
        SubsequenceKeepsUnique(r', t', key);
        forall j | 0 <= j < |r'|
          ensures key(r'[j]) != key(r[0])
        {
          var m :| 0 <= m < |t'| && key(t'[m]) == key(r'[j]);
          assert t'[m] == t[m + 1];
        }
        assert forall i :: 0 < i < |r| ==> r[i] == r'[i - 1];
        forall i | 0 <= i < |r|
          ensures HasKey(t, key, key(r[i]))
        {
          if i > 0 {
            assert r[i] == r'[i - 1];
            var m :| 0 <= m < |t'| && key(t'[m]) == key(r'[i - 1]);
            assert t'[m] == t[m + 1];
          } else {
            assert key(t[0]) == key(r[0]);
          }
        }
      } else {
        SubsequenceKeepsUnique(r, t', key);
        forall i | 0 <= i < |r|
          ensures HasKey(t, key, key(r[i]))
        {
          var m :| 0 <= m < |t'| && key(t'[m]) == key(r[i]);
          assert t'[m] == t[m + 1];
        }
      }
    }
  }

  /** With unique keys, at most one record matches a key (the condition
      under which `SingleOrDefault` returns instead of throwing). */
  lemma {:induction false} UniqueKeysMatchAtMostOnce<T>(t: seq<T>, key: T -> Guid, k: Guid)
    requires UniqueKeys(t, key)
    ensures |Seqs.Filter(t, KeyIs(key, k))| <= 1
    decreases |t|
  {
    if |t| > 0 {
      var t' := t[1..];
      assert UniqueKeys(t', key) by {
        assert forall j :: 0 <= j < |t'| ==> t'[j] == t[j + 1];
      }
      UniqueKeysMatchAtMostOnce(t', key, k);
      if key(t[0]) == k {
        forall m | 0 <= m < |t'|
          ensures key(t'[m]) != k
        {
          assert t'[m] == t[m + 1];
        }
        Seqs.FilterNone(t', KeyIs(key, k));
      }
    }
  }

  /** How many records `SingleOrDefault` sees for a key: none when the key
      is absent, at least one when present, at most one when keys are
      unique. */
  lemma MatchesOfKey<T>(t: seq<T>, key: T -> Guid, k: Guid)
    ensures !HasKey(t, key, k) ==> |Seqs.Filter(t, KeyIs(key, k))| == 0
    ensures HasKey(t, key, k) ==> |Seqs.Filter(t, KeyIs(key, k))| >= 1
    ensures UniqueKeys(t, key) ==> |Seqs.Filter(t, KeyIs(key, k))| <= 1
  {
    if !HasKey(t, key, k) {
      Seqs.FilterNone(t, KeyIs(key, k));
    }
    if UniqueKeys(t, key) {
      UniqueKeysMatchAtMostOnce(t, key, k);
    }
  }
}

=== FILE: models.dfy ===
/** The two entities of the API. The persistence classes and the transport
    models have the same fields and the object mapper copies them one for
    one, so a single datatype stands for both. */
module Models {
  import opened Common

  /** A C# `decimal`: an integer mantissa scaled by a power of ten. Prices
      are stored and returned but never computed with. */
  datatype Decimal = Decimal(mantissa: int, scale: nat)

  datatype Product = Product(
    id: Guid,
    name: string,
    description: Option<string>,
    price: Decimal,
    deliveryPrice: Decimal)

  datatype ProductOption = ProductOption(
    id: Guid,
    productId: Guid,
    name: string,
    description: Option<string>)

  /** The primary key of each table. */
  function ProductKey(p: Product): Guid { p.id }

  function OptionKey(o: ProductOption): Guid { o.id }
}

=== FILE: product_option_service.dfy ===
/** The product-option service over the option table. Every failure it
    raises is a `GlobalException`. */
module ProductOptionService {
  import opened Common
  import opened Models
  import opened DataContext
  import Seqs

  function OfProduct(productId: Guid): ProductOption -> bool
  {
    (o: ProductOption) => o.productId == productId
  }

  function NotOfProduct(productId: Guid): ProductOption -> bool
  {
    (o: ProductOption) => o.productId != productId
  }

  function Matches(productId: Guid, id: Guid): ProductOption -> bool
  {
    (o: ProductOption) => o.id == id && o.productId == productId
  }

  const DuplicateOption := Failure(GlobalErr, DuplicateOptionMessage)
  const OptionNotAvailable := Failure(GlobalErr, OptionNotAvailableMessage)

  /** The identifier a created option is stored under: its own, or the
      freshly generated one when its own is empty. */
  function StoredId(option: ProductOption, newId: Guid): Guid
  {
    if option.id == EmptyGuid then newId else option.id
  }

  /** `Create(option)`; `newId` is the value `Guid.NewGuid()` would return.
      The duplicate check looks up the option's own identifier, before an
      empty one is replaced. */
  function Create(t: seq<ProductOption>, option: ProductOption, newId: Guid): (r: Step<seq<ProductOption>>)
    ensures HasKey(t, OptionKey, option.id) ==> r == Step(Raised(DuplicateOption), t)
    ensures !HasKey(t, OptionKey, option.id) ==>
      && r.status == Done
      && |r.store| == |t| + 1
      && r.store[..|t|] == t
      && r.store[|t|].id == StoredId(option, newId)
      && r.store[|t|].(id := option.id) == option
  {
    var existing := Find(t, OptionKey, option.id);
    if existing.Some? then Step(Raised(DuplicateOption), t)
    else
      var stored := if option.id == EmptyGuid then option.(id := newId) else option;
      Step(Done, Add(t, stored))
  }

  /** `Update(option)`: the stored option with the same identifier takes
      every value of `option`, `ProductId` included. */
  function Update(t: seq<ProductOption>, option: ProductOption): (r: Step<seq<ProductOption>>)
    ensures !HasKey(t, OptionKey, option.id) ==> r == Step(Raised(OptionNotAvailable), t)
    ensures HasKey(t, OptionKey, option.id) ==>
      && r.status == Done
      && |r.store| == |t|
      && Find(r.store, OptionKey, option.id) == Some(option)
      && (forall j :: 0 <= j < |t| && t[j].id != option.id ==> r.store[j] == t[j])
    ensures HasKey(t, OptionKey, option.id) && UniqueKeys(t, OptionKey) ==>
      forall j :: 0 <= j < |t| && t[j].id == option.id ==> r.store[j] == option
  {
    match IndexOf(t, OptionKey, option.id)
    case None => Step(Raised(OptionNotAvailable), t)
    case Some(i) =>
      var r := UpdateEntity(t, i, option);
      assert IndexOf(r, OptionKey, option.id) == Some(i);
      Step(Done, r)
  }

  /** `DeleteById(id)`. */
  function DeleteById(t: seq<ProductOption>, id: Guid): (r: Step<seq<ProductOption>>)
    ensures !HasKey(t, OptionKey, id) ==> r == Step(Raised(OptionNotAvailable), t)
    ensures HasKey(t, OptionKey, id) ==>
      && r.status == Done
      && r.store == t[..IndexOf(t, OptionKey, id).value] + t[IndexOf(t, OptionKey, id).value + 1..]
      && multiset(r.store) + multiset{Find(t, OptionKey, id).value} == multiset(t)
    ensures HasKey(t, OptionKey, id) && UniqueKeys(t, OptionKey) ==>
      UniqueKeys(r.store, OptionKey) && !HasKey(r.store, OptionKey, id)
  {
    match Find(t, OptionKey, id)
    case None => Step(Raised(OptionNotAvailable), t)
    case Some(o) =>
      var i := IndexOf(t, OptionKey, id).value;
      RemoveFound(t, OptionKey, id);
      assert t == t[..i] + [t[i]] + t[i + 1..];
      DeleteAtKeepsUnique(t, OptionKey, i);
      Step(Done, Remove(t, o))
  }

  /** `DeleteByProductId(productId)`: removes the options of one product
      and keeps all others in their order. It never fails. */
  function DeleteByProductId(t: seq<ProductOption>, productId: Guid): (r: Step<seq<ProductOption>>)
    ensures r.status == Done
    ensures r.store == Seqs.Filter(t, NotOfProduct(productId))
    ensures forall i :: 0 <= i < |r.store| ==> r.store[i].productId != productId && r.store[i] in t
    ensures forall i :: 0 <= i < |t| && t[i].productId != productId ==> t[i] in r.store
    ensures Seqs.IsSubsequence(r.store, t)
  {
    var options := GetOptionsByProductId(t, productId);
    Seqs.RemoveEachOfFilter(t, OfProduct(productId), NotOfProduct(productId));
    Seqs.FilterIsSubsequence(t, NotOfProduct(productId));
    Step(Done, RemoveRange(t, options))
  }

  /** `GetOptionsByProductId(productId)`: the options of one product, in
      store order. */
  function GetOptionsByProductId(t: seq<ProductOption>, productId: Guid): (r: seq<ProductOption>)
    ensures forall i :: 0 <= i < |r| ==> r[i].productId == productId && r[i] in t
    ensures forall i :: 0 <= i < |t| && t[i].productId == productId ==> t[i] in r
    ensures Seqs.IsSubsequence(r, t)
  {
    Seqs.FilterIsSubsequence(t, OfProduct(productId));
    Seqs.Filter(t, OfProduct(productId))
  }

  /** `GetSingleOptionByProductId(productId, id)`: the first option with
      both identifiers, or null. */
  function GetSingleOptionByProductId(t: seq<ProductOption>, productId: Guid, id: Guid): (r: Option<ProductOption>)
    ensures r.Some? ==> r.value in t && r.value.id == id && r.value.productId == productId
    ensures r.None? <==> forall j :: 0 <= j < |t| ==> !(t[j].id == id && t[j].productId == productId)
  {
    match Seqs.FirstIndex(t, Matches(productId, id))
    case None => None
    case Some(i) => Some(t[i])
  }

  // ---------------------------------------------------------------------
  // Properties relating the operations.

  /** Creation keeps option identifiers unique when the generated
      identifier is new. */
  lemma CreateKeepsUniqueIds(t: seq<ProductOption>, option: ProductOption, newId: Guid)
    ensures UniqueKeys(t, OptionKey) && !HasKey(t, OptionKey, newId) ==>
      UniqueKeys(Create(t, option, newId).store, OptionKey)
  {
    if UniqueKeys(t, OptionKey) && !HasKey(t, OptionKey, option.id) && !HasKey(t, OptionKey, newId) {
      var stored := Create(t, option, newId).store[|t|];
      assert Create(t, option, newId).store == Add(t, stored);
      AddKeepsUnique(t, OptionKey, stored);
    }
  }

  lemma UpdateKeepsUniqueIds(t: seq<ProductOption>, option: ProductOption)
    ensures UniqueKeys(t, OptionKey) ==> UniqueKeys(Update(t, option).store, OptionKey)
  {
    if UniqueKeys(t, OptionKey) && HasKey(t, OptionKey, option.id) {
      var i := IndexOf(t, OptionKey, option.id).value;
      UpdateKeepsUnique(t, OptionKey, i, option);
    }
  }

  lemma DeleteByIdKeepsUniqueIds(t: seq<ProductOption>, id: Guid)
    ensures UniqueKeys(t, OptionKey) ==> UniqueKeys(DeleteById(t, id).store, OptionKey)
  {
  }

  lemma DeleteByProductIdKeepsUniqueIds(t: seq<ProductOption>, productId: Guid)
    ensures UniqueKeys(t, OptionKey) ==> UniqueKeys(DeleteByProductId(t, productId).store, OptionKey)
  {
    if UniqueKeys(t, OptionKey) {
      SubsequenceKeepsUnique(DeleteByProductId(t, productId).store, t, OptionKey);
    }
  }

  /** A created option can be read back under its product and stored
      identifier. */
  lemma CreateThenGet(t: seq<ProductOption>, option: ProductOption, newId: Guid)
    requires !HasKey(t, OptionKey, option.id)
    requires option.id == EmptyGuid ==> !HasKey(t, OptionKey, newId)
    ensures var r := Create(t, option, newId);
      && r.status == Done
      && GetSingleOptionByProductId(r.store, option.productId, StoredId(option, newId))
         == Some(option.(id := StoredId(option, newId)))
  {
    var r := Create(t, option, newId);
    var stored := option.(id := StoredId(option, newId));
    assert r.store[|t|] == stored;
    assert forall j :: 0 <= j < |t| ==> r.store[j] == t[j] && t[j].id != stored.id;
  }

  /** Updating twice with the same option is the same as updating once. */
  lemma UpdateIdempotent(t: seq<ProductOption>, option: ProductOption)
    ensures Update(Update(t, option).store, option) == Update(t, option)
  {
    if HasKey(t, OptionKey, option.id) {
      var i := IndexOf(t, OptionKey, option.id).value;
      var once := Update(t, option).store;
      assert once == t[i := option];
      assert IndexOf(once, OptionKey, option.id) == Some(i);
      assert once[i := option] == once;
    }
  }

  /** An updated option is found again under its path identifiers. */
  lemma UpdateThenGet(t: seq<ProductOption>, option: ProductOption)
    ensures HasKey(t, OptionKey, option.id) ==>
      GetSingleOptionByProductId(Update(t, option).store, option.productId, option.id) == Some(option)
  {
    if HasKey(t, OptionKey, option.id) {
      var i := IndexOf(t, OptionKey, option.id).value;
      var r := Update(t, option).store;
      assert r == t[i := option];
      assert Seqs.FirstIndex(r, Matches(option.productId, option.id)) == Some(i);
    }
  }

  /** A deleted option cannot be read back. */
  lemma DeleteThenGet(t: seq<ProductOption>, id: Guid, productId: Guid)
    requires UniqueKeys(t, OptionKey)
    ensures GetSingleOptionByProductId(DeleteById(t, id).store, productId, id) == None
  {
  }

  /** Deleting a product's options twice is the same as deleting them once,
      and afterwards the product has no options. */
  lemma DeleteByProductIdIdempotent(t: seq<ProductOption>, productId: Guid)
    ensures DeleteByProductId(DeleteByProductId(t, productId).store, productId) == DeleteByProductId(t, productId)
    ensures GetOptionsByProductId(DeleteByProductId(t, productId).store, productId) == []
  {
    Seqs.FilterIdempotent(t, NotOfProduct(productId));
    var r := DeleteByProductId(t, productId).store;
    Seqs.FilterNone(r, OfProduct(productId));
  }

  /** The cascading delete removes exactly the options the product listing
      returns: the two partition the table. */
  lemma DeleteByProductIdPartition(t: seq<ProductOption>, productId: Guid)
    ensures |GetOptionsByProductId(t, productId)| + |DeleteByProductId(t, productId).store| == |t|
  {
    Seqs.FilterComplementSizes(t, OfProduct(productId), NotOfProduct(productId));
  }

  /** With unique identifiers, the two-key lookup is the one-key lookup
      restricted to the product. */
  lemma GetSingleIsFindWithinProduct(t: seq<ProductOption>, productId: Guid, id: Guid)
    requires UniqueKeys(t, OptionKey)
    ensures GetSingleOptionByProductId(t, productId, id)
         == match Find(t, OptionKey, id)
            case Some(o) => if o.productId == productId then Some(o) else None
            case None => None
  {
    match Seqs.FirstIndex(t, Matches(productId, id))
    case Some(i) =>
      FindUnique(t, OptionKey, i);
    case None =>
  }
}

=== FILE: product_service.dfy ===
/** The product service over the product table, as the code is written:
    no failure it raises is the application's `GlobalException`,
    `CreateProduct` never stores anything, and
    `UpdateProduct` never writes the new values. The `...Corrected`
    definitions are the evidently intended behaviour. */
module ProductService {
  import opened Common
  import opened Models
  import opened DataContext
  import Seqs
  import Text

  const DuplicateProduct := Failure(OtherErr, DuplicateProductMessage)
  const ProductNotAvailable := Failure(OtherErr, ProductNotAvailableMessage)
  const MoreThanOneMatch := Failure(OtherErr, MoreThanOneMatchMessage)

  /** The identifier a created product is stored under: its own, or the
      freshly generated one when its own is empty. */
  function StoredId(product: Product, newId: Guid): Guid
  {
    if product.id == EmptyGuid then newId else product.id
  }

  function NameMatches(name: string): Product -> bool
  {
    (p: Product) => Text.ContainsIgnoringCase(p.name, name)
  }

  // ---------------------------------------------------------------------
  // The operations as written.

  /** `CreateProduct(product)`; `product` is `None` for a null argument and
      `newId` is the value `Guid.NewGuid()` would return. The guard tests
      the mapped product for non-null instead of looking its identifier up,
      so a non-null product always takes the throwing branch, and a null one
      fails when its `Id` is read: nothing is ever stored. */
  function CreateProduct(t: seq<Product>, product: Option<Product>, newId: Guid): (r: Step<seq<Product>>)
    ensures r.store == t
    ensures r.status.Raised? && r.status.failure.kind == OtherErr
    ensures product.Some? ==> r.status.failure.message == DuplicateProductMessage
    ensures product.None? ==> r.status.failure == NullReference
  {
    var domainProduct := product;
    if domainProduct.Some? then Step(Raised(DuplicateProduct), t)
    else Step(Raised(NullReference), t)
  }

  /** `DeleteProduct(id)`. */
  function DeleteProduct(t: seq<Product>, id: Guid): (r: Step<seq<Product>>)
    ensures !HasKey(t, ProductKey, id) ==> r == Step(Raised(ProductNotAvailable), t)
    ensures HasKey(t, ProductKey, id) ==>
      && r.status == Done
      && r.store == t[..IndexOf(t, ProductKey, id).value] + t[IndexOf(t, ProductKey, id).value + 1..]
    ensures HasKey(t, ProductKey, id) && UniqueKeys(t, ProductKey) ==>
      UniqueKeys(r.store, ProductKey) && GetProductById(r.store, id) == None
  {
    RemoveProduct(t, id, OtherErr)
  }

  /** Deletion of the product with identifier `id`, raising an exception
      of `kind` when there is none. */
  function RemoveProduct(t: seq<Product>, id: Guid, kind: ErrorKind): (r: Step<seq<Product>>)
    ensures !HasKey(t, ProductKey, id) ==> r == Step(Raised(Failure(kind, ProductNotAvailableMessage)), t)
    ensures HasKey(t, ProductKey, id) ==>
      && r.status == Done
      && r.store == t[..IndexOf(t, ProductKey, id).value] + t[IndexOf(t, ProductKey, id).value + 1..]
    ensures HasKey(t, ProductKey, id) && UniqueKeys(t, ProductKey) ==>
      UniqueKeys(r.store, ProductKey) && !HasKey(r.store, ProductKey, id)
  {
    match Find(t, ProductKey, id)
    case None => Step(Raised(Failure(kind, ProductNotAvailableMessage)), t)
    case Some(p) =>
      RemoveFound(t, ProductKey, id);
      DeleteAtKeepsUnique(t, ProductKey, IndexOf(t, ProductKey, id).value);
      Step(Done, Remove(t, p))
  }

  /** `UpdateProduct(productId, updatedProduct)` as written: the stored
      product is looked up with `SingleOrDefault`, marked modified and saved
      back with its own values; `updatedProduct` is never read. */
  function UpdateProduct(t: seq<Product>, productId: Guid, updatedProduct: Product): (r: Step<seq<Product>>)
    ensures r.store == t
    ensures r.status.Raised? ==> r.status.failure.kind == OtherErr
    ensures !HasKey(t, ProductKey, productId) ==> r.status == Raised(ProductNotAvailable)
    ensures HasKey(t, ProductKey, productId) && UniqueKeys(t, ProductKey) ==> r.status == Done
  {
    var matches := Seqs.Filter(t, KeyIs(ProductKey, productId));
    MatchesOfKey(t, ProductKey, productId);
    if |matches| > 1 then Step(Raised(MoreThanOneMatch), t)
    else if |matches| == 0 then Step(Raised(ProductNotAvailable), t)
    else Step(Done, t)
  }

  /** `GetProductById(id)`: the stored product, or null. */
  function GetProductById(t: seq<Product>, id: Guid): (r: Option<Product>)
    ensures r.Some? <==> HasKey(t, ProductKey, id)
    ensures r.Some? ==> r.value in t && r.value.id == id
  {
    Find(t, ProductKey, id)
  }

  /** `GetProductByName(name)`: the products whose lower-cased name contains
      the lower-cased query, in store order. */
  function GetProductByName(t: seq<Product>, name: string): (r: seq<Product>)
    ensures forall i :: 0 <= i < |r| ==> Text.ContainsIgnoringCase(r[i].name, name) && r[i] in t
    ensures forall i :: 0 <= i < |t| && Text.ContainsIgnoringCase(t[i].name, name) ==> t[i] in r
    ensures Seqs.IsSubsequence(r, t)
  {
    Seqs.FilterIsSubsequence(t, NameMatches(name));
    Seqs.Filter(t, NameMatches(name))
  }

  /** `GetProducts()`: every product in store order. */
  function GetProducts(t: seq<Product>): (r: seq<Product>)
    ensures |r| == |t|
    ensures forall i :: 0 <= i < |t| ==> r[i] == t[i]
  {
    t
  }

  // ---------------------------------------------------------------------
  // The corrected operations.

  /** `CreateProduct` with the guard the option service uses: a store
      lookup of the identifier, raising `GlobalException`. */
  function CreateProductCorrected(t: seq<Product>, product: Option<Product>, newId: Guid): (r: Step<seq<Product>>)
    ensures product.None? ==> r == Step(Raised(NullReference), t)
    ensures product.Some? && HasKey(t, ProductKey, product.value.id) ==>
      r == Step(Raised(Failure(GlobalErr, DuplicateProductMessage)), t)
    ensures product.Some? && !HasKey(t, ProductKey, product.value.id) ==>
      && r.status == Done
      && |r.store| == |t| + 1
      && r.store[..|t|] == t
      && r.store[|t|] == product.value.(id := StoredId(product.value, newId))
    ensures product.Some? && !HasKey(t, ProductKey, product.value.id)
            && (product.value.id == EmptyGuid ==> !HasKey(t, ProductKey, newId)) ==>
      GetProductById(r.store, StoredId(product.value, newId))
        == Some(product.value.(id := StoredId(product.value, newId)))
  {
    match product
    case None => Step(Raised(NullReference), t)
    case Some(p) =>
      if Find(t, ProductKey, p.id).Some? then
        Step(Raised(Failure(GlobalErr, DuplicateProductMessage)), t)
      else
        var stored := if p.id == EmptyGuid then p.(id := newId) else p;
        var r := Add(t, stored);
        assert forall j :: 0 <= j < |t| ==> r[j] == t[j];
        Step(Done, r)
  }

  /** `DeleteProduct` raising `GlobalException`. */
  function DeleteProductCorrected(t: seq<Product>, id: Guid): (r: Step<seq<Product>>)
    ensures !HasKey(t, ProductKey, id) ==>
      r == Step(Raised(Failure(GlobalErr, ProductNotAvailableMessage)), t)
    ensures HasKey(t, ProductKey, id) ==> r == DeleteProduct(t, id)
  {
    RemoveProduct(t, id, GlobalErr)
  }

  /** `UpdateProduct` that stores the new values: every field of the stored
      product takes the value of `updatedProduct` except the identifier,
      raising `GlobalException` when the product is absent. */
  function UpdateProductCorrected(t: seq<Product>, productId: Guid, updatedProduct: Product): (r: Step<seq<Product>>)
    ensures !HasKey(t, ProductKey, productId) ==>
      r == Step(Raised(Failure(GlobalErr, ProductNotAvailableMessage)), t)
    ensures HasKey(t, ProductKey, productId) ==>
      && r.status == Done
      && |r.store| == |t|
      && GetProductById(r.store, productId) == Some(updatedProduct.(id := productId))
      && (forall j :: 0 <= j < |t| && t[j].id != productId ==> r.store[j] == t[j])
  {
    match IndexOf(t, ProductKey, productId)
    case None => Step(Raised(Failure(GlobalErr, ProductNotAvailableMessage)), t)
    case Some(i) =>
      var r := UpdateEntity(t, i, updatedProduct.(id := productId));
      assert IndexOf(r, ProductKey, productId) == Some(i);
      Step(Done, r)
  }

  /** Which definition of the mutating operations runs. */
  datatype Build = AsWritten | Corrected

  function CreateProductBy(b: Build, t: seq<Product>, product: Option<Product>, newId: Guid): Step<seq<Product>>
  {
    if b == AsWritten then CreateProduct(t, product, newId) else CreateProductCorrected(t, product, newId)
  }

  function UpdateProductBy(b: Build, t: seq<Product>, productId: Guid, updatedProduct: Product): Step<seq<Product>>
  {
    if b == AsWritten then UpdateProduct(t, productId, updatedProduct)
    else UpdateProductCorrected(t, productId, updatedProduct)
  }

  function DeleteProductBy(b: Build, t: seq<Product>, id: Guid): Step<seq<Product>>
  {
    if b == AsWritten then DeleteProduct(t, id) else DeleteProductCorrected(t, id)
  }

  // ---------------------------------------------------------------------
  // Properties relating the operations.

  /** With unique identifiers, looking up a stored product's identifier
      returns that product. */
  lemma GetProductByIdFindsStored(t: seq<Product>, i: nat)
    requires UniqueKeys(t, ProductKey) && i < |t|
    ensures GetProductById(t, t[i].id) == Some(t[i])
  {
    FindUnique(t, ProductKey, i);
  }

  /** Under either build, creation keeps product identifiers unique when the
      generated identifier is new. */
  lemma CreateProductKeepsUniqueIds(b: Build, t: seq<Product>, product: Option<Product>, newId: Guid)
    ensures UniqueKeys(t, ProductKey) && !HasKey(t, ProductKey, newId) ==>
      UniqueKeys(CreateProductBy(b, t, product, newId).store, ProductKey)
  {
    if UniqueKeys(t, ProductKey) && b == Corrected && product.Some?
       && !HasKey(t, ProductKey, product.value.id) && !HasKey(t, ProductKey, newId) {
      var stored := product.value.(id := StoredId(product.value, newId));
      assert CreateProductCorrected(t, product, newId).store == Add(t, stored);
      AddKeepsUnique(t, ProductKey, stored);
    }
  }

  /** Under either build, an update keeps product identifiers unique. */
  lemma UpdateProductKeepsUniqueIds(b: Build, t: seq<Product>, productId: Guid, updatedProduct: Product)
    ensures UniqueKeys(t, ProductKey) ==> UniqueKeys(UpdateProductBy(b, t, productId, updatedProduct).store, ProductKey)
  {
    if UniqueKeys(t, ProductKey) && b == Corrected && HasKey(t, ProductKey, productId) {
      var i := IndexOf(t, ProductKey, productId).value;
      UpdateKeepsUnique(t, ProductKey, i, updatedProduct.(id := productId));
    }
  }

  /** Under either build, a delete keeps product identifiers unique. */
  lemma DeleteProductKeepsUniqueIds(b: Build, t: seq<Product>, id: Guid)
    ensures UniqueKeys(t, ProductKey) ==> UniqueKeys(DeleteProductBy(b, t, id).store, ProductKey)
  {
  }

  /** The search is case-insensitive in its query. */
  lemma GetProductByNameIgnoresQueryCase(t: seq<Product>, name: string)
    ensures GetProductByName(t, Text.Lower(name)) == GetProductByName(t, name)
  {
    Text.LowerIdempotent(name);
    Seqs.FilterCongruent(t, NameMatches(Text.Lower(name)), NameMatches(name));
  }

  /** Searching for the empty name lists every product. */
  lemma EmptySearchIsGetProducts(t: seq<Product>)
    ensures GetProductByName(t, "") == GetProducts(t)
  {
    forall i | 0 <= i < |t|
      ensures NameMatches("")(t[i])
    {
      Text.ContainsEmpty(t[i].name);
    }
    Seqs.FilterAll(t, NameMatches(""));
  }

  // ---------------------------------------------------------------------
  // Where the code as written and the corrected operations part.

  /** Creating a product whose identifier is not stored fails as a
      duplicate, where the corrected operation stores it. */
  lemma CreateProductRejectsNewProduct(t: seq<Product>, product: Product, newId: Guid)
    requires !HasKey(t, ProductKey, product.id)
    ensures CreateProduct(t, Some(product), newId) == Step(Raised(DuplicateProduct), t)
    ensures CreateProductCorrected(t, Some(product), newId).status == Done
    ensures |CreateProductCorrected(t, Some(product), newId).store| == |t| + 1
  {
  }

  /** A stored product named "Product1" keeps its name after an update to
      "UpdatedProduct", where the corrected operation renames it. */
  lemma UpdateProductKeepsOldValues()
    ensures var stored := Product(1, "Product1", None, Decimal(10499, 2), Decimal(199, 2));
      var updated := stored.(name := "UpdatedProduct");
      && UpdateProduct([stored], 1, updated) == Step(Done, [stored])
      && UpdateProductCorrected([stored], 1, updated) == Step(Done, [updated])
  {
    var stored := Product(1, "Product1", None, Decimal(10499, 2), Decimal(199, 2));
    var updated := stored.(name := "UpdatedProduct");
    var t := [stored];
    assert ProductKey(t[0]) == 1;
    assert UniqueKeys(t, ProductKey);
    assert IndexOf(t, ProductKey, 1) == Some(0);
    assert UpdateProductCorrected(t, 1, updated).store == t[0 := updated];
    assert t[0 := updated] == [updated];
  }

  /** The query "prod" finds "Product1", "Product2" and "MyProduct" but not
      "Gadget". */
  lemma SearchMatchesSubstringsIgnoringCase(t: seq<Product>)
    requires |t| == 4
    requires t[0].name == "Product1" && t[1].name == "Product2"
    requires t[2].name == "MyProduct" && t[3].name == "Gadget"
    ensures GetProductByName(t, "prod") == t[..3]
  {
    var p := NameMatches("prod");
    ProdOccursIn(t[0].name, 0);
    ProdOccursIn(t[1].name, 0);
    ProdOccursIn(t[2].name, 2);
    GadgetHasNoProd(t[3].name);
    assert t == t[..3] + t[3..];
    Seqs.FilterAll(t[..3], p);
    Seqs.FilterNone(t[3..], p);
    Seqs.FilterAppend(t[..3], t[3..], p);
  }

  lemma ProdOccursIn(name: string, k: nat)
    requires k + 4 <= |name|
    requires Text.LowerChar(name[k]) == 'p' && Text.LowerChar(name[k + 1]) == 'r'
    requires Text.LowerChar(name[k + 2]) == 'o' && Text.LowerChar(name[k + 3]) == 'd'
    ensures Text.ContainsIgnoringCase(name, "prod")
  {
    var l := Text.Lower(name);
    assert Text.Lower("prod") == "prod";
    assert l[k..k + 4] == "prod";
    assert Text.OccursAt(l, "prod", k);
    Text.ContainsIffOccurs(l, "prod");
  }

  lemma GadgetHasNoProd(name: string)
    requires name == "Gadget"
    ensures !Text.ContainsIgnoringCase(name, "prod")
  {
    var g := Text.Lower(name);
    assert Text.Lower("prod") == "prod";
    assert g == "gadget";
    assert !Text.Contains(g[6..], "prod");
    assert !Text.Contains(g[5..], "prod") by { assert g[5..][1..] == g[6..]; }
    assert !Text.Contains(g[4..], "prod") by { assert g[4..][1..] == g[5..]; }
    assert !Text.Contains(g[3..], "prod") by { assert g[3..][1..] == g[4..]; }
    assert !Text.Contains(g[2..], "prod") by { assert g[2..][1..] == g[3..]; }
    assert !Text.Contains(g[1..], "prod") by { assert g[1..][1..] == g[2..]; }
  }
}

=== FILE: products_controller.dfy ===
/** The HTTP boundary: the eleven endpoints of `ProductsController`, each a
    function from the request (path identifiers and body) and the store to
    the response and the new store. Identifier checks on the body happen
    before any service call; `catch (GlobalException)` clauses turn the
    application's own failures into a status code, and every other exception
    escapes the controller as an uncaught error. The product endpoints take
    the product service `Build` that runs behind them. */
module ProductsController {
  import opened Common
  import opened Models
  import opened DataContext
  import PS = ProductService
  import OS = ProductOptionService
  import Text
  import Seqs

  /** The store: both tables. */
  datatype Db = Db(products: seq<Product>, options: seq<ProductOption>)

  ghost predicate Valid(db: Db)
  {
    UniqueKeys(db.products, ProductKey) && UniqueKeys(db.options, OptionKey)
  }

  /** The status codes the controller chooses. */
  datatype HttpCode = NoContent | BadRequest | NotFound
  {
    function Number(): int
    {
      match this
      case NoContent => 204
      case BadRequest => 400
      case NotFound => 404
    }
  }

  /** What an endpoint ends with: a bodiless status, a returned value, or an
      exception that leaves the controller. */
  datatype Response<T> = Status(code: HttpCode) | Content(value: T) | Uncaught(failure: Failure)

  datatype Reply<T> = Reply(response: Response<T>, db: Db)

  /** A service call inside `try { ... } catch (GlobalException) { throw
      new HttpResponseException(code); }`, followed by a 204 response. */
  function Catching(s: Status, code: HttpCode): (r: Response<()>)
    ensures s.Done? ==> r == Status(NoContent)
    ensures s.Raised? && s.failure.kind == GlobalErr ==> r == Status(code)
    ensures s.Raised? && s.failure.kind == OtherErr ==> r == Uncaught(s.failure)
  {
    match s
    case Done => Status(NoContent)
    case Raised(f) => if f.kind == GlobalErr then Status(code) else Uncaught(f)
  }

  /** A service call with no handler, followed by a 204 response. */
  function Unguarded(s: Status): (r: Response<()>)
    ensures s.Done? <==> r == Status(NoContent)
    ensures s.Raised? ==> r == Uncaught(s.failure)
  {
    match s
    case Done => Status(NoContent)
    case Raised(f) => Uncaught(f)
  }

  // ---------------------------------------------------------------------
  // Products

  /** `POST /products`. */
  function CreateProduct(b: PS.Build, db: Db, product: Option<Product>, newId: Guid): (r: Reply<()>)
    ensures r.db.options == db.options
    ensures b == PS.AsWritten ==>
      r.db == db && r.response.Uncaught? && r.response.failure.kind == OtherErr
    ensures b == PS.Corrected && product.Some? && HasKey(db.products, ProductKey, product.value.id) ==>
      r == Reply(Status(BadRequest), db)
    ensures b == PS.Corrected && product.Some? && !HasKey(db.products, ProductKey, product.value.id) ==>
      && r.response == Status(NoContent)
      && |r.db.products| == |db.products| + 1
      && r.db.products[..|db.products|] == db.products
      && r.db.products[|db.products|] == product.value.(id := PS.StoredId(product.value, newId))
    ensures b == PS.Corrected && product.None? ==> r == Reply(Uncaught(NullReference), db)
    ensures Valid(db) && !HasKey(db.products, ProductKey, newId) ==> Valid(r.db)
  {
    var step := PS.CreateProductBy(b, db.products, product, newId);
    PS.CreateProductKeepsUniqueIds(b, db.products, product, newId);
    Reply(Catching(step.status, BadRequest), db.(products := step.store))
  }

  /** `PUT /products/{id}`. There is no handler around the service call. */
  function UpdateProduct(b: PS.Build, db: Db, id: Guid, product: Option<Product>): (r: Reply<()>)
    ensures r.db.options == db.options
    ensures product.None? ==> r == Reply(Uncaught(NullReference), db)
    ensures product.Some? && product.value.id != id ==> r == Reply(Status(BadRequest), db)
    ensures product.Some? && product.value.id == id && !HasKey(db.products, ProductKey, id) ==>
      r.db == db && r.response.Uncaught?
    ensures b == PS.AsWritten ==> r.db == db
    ensures b == PS.AsWritten && product.Some? && product.value.id == id
            && HasKey(db.products, ProductKey, id) && UniqueKeys(db.products, ProductKey) ==>
      r == Reply(Status(NoContent), db)
    ensures b == PS.Corrected && product.Some? && product.value.id == id && HasKey(db.products, ProductKey, id) ==>
      && r.response == Status(NoContent)
      && PS.GetProductById(r.db.products, id) == Some(product.value)
      && |r.db.products| == |db.products|
      && (forall j :: 0 <= j < |db.products| && db.products[j].id != id ==> r.db.products[j] == db.products[j])
    ensures Valid(db) ==> Valid(r.db)
  {
    match product
    case None => Reply(Uncaught(NullReference), db)
    case Some(p) =>
      if p.id != id then Reply(Status(BadRequest), db)
      else
        var step := PS.UpdateProductBy(b, db.products, id, p);
        PS.UpdateProductKeepsUniqueIds(b, db.products, id, p);
        assert p.(id := id) == p;
        Reply(Unguarded(step.status), db.(products := step.store))
  }

  /** `DELETE /products/{id}`: deletes the product, then its options, inside
      one `try`; the options are not touched when the product delete
      throws. */
  function DeleteProduct(b: PS.Build, db: Db, id: Guid): (r: Reply<()>)
    ensures !HasKey(db.products, ProductKey, id) ==> r.db == db
    ensures !HasKey(db.products, ProductKey, id) && b == PS.AsWritten ==>
      r.response == Uncaught(PS.ProductNotAvailable)
    ensures !HasKey(db.products, ProductKey, id) && b == PS.Corrected ==>
      r.response == Status(BadRequest)
    ensures HasKey(db.products, ProductKey, id) ==>
      && r.response == Status(NoContent)
      && |r.db.products| == |db.products| - 1
      && r.db.products == db.products[..IndexOf(db.products, ProductKey, id).value]
                          + db.products[IndexOf(db.products, ProductKey, id).value + 1..]
      && r.db.options == Seqs.Filter(db.options, OS.NotOfProduct(id))
      && (forall i :: 0 <= i < |r.db.options| ==> r.db.options[i].productId != id && r.db.options[i] in db.options)
      && (forall i :: 0 <= i < |db.options| && db.options[i].productId != id ==> db.options[i] in r.db.options)
    ensures HasKey(db.products, ProductKey, id) && Valid(db) ==>
      && Valid(r.db)
      && PS.GetProductById(r.db.products, id) == None
      && OS.GetOptionsByProductId(r.db.options, id) == []
  {
    var productStep := PS.DeleteProductBy(b, db.products, id);
    if productStep.status.Raised? then
      Reply(Catching(productStep.status, BadRequest), db)
    else
      var optionStep := OS.DeleteByProductId(db.options, id);
      OS.DeleteByProductIdIdempotent(db.options, id);
      OS.DeleteByProductIdKeepsUniqueIds(db.options, id);
      Reply(Catching(optionStep.status, BadRequest), Db(productStep.store, optionStep.store))
  }

  /** `GET /products`. */
  function GetAllProducts(db: Db): (r: Response<seq<Product>>)
    ensures r == Content(db.products)
  {
    Content(PS.GetProducts(db.products))
  }

  /** `GET /products?name=`. */
  function SearchByName(db: Db, name: string): (r: Response<seq<Product>>)
    ensures r.Content?
    ensures forall i :: 0 <= i < |db.products| ==>
      (db.products[i] in r.value <==> Text.ContainsIgnoringCase(db.products[i].name, name))
    ensures forall i :: 0 <= i < |r.value| ==> r.value[i] in db.products
    ensures Seqs.IsSubsequence(r.value, db.products)
  {
    Content(PS.GetProductByName(db.products, name))
  }

  /** `GET /products/{id}`. */
  function GetProduct(db: Db, id: Guid): (r: Response<Product>)
    ensures r == Status(NotFound) <==> !HasKey(db.products, ProductKey, id)
    ensures r.Content? || r == Status(NotFound)
    ensures r.Content? ==> r.value in db.products && r.value.id == id
  {
    match PS.GetProductById(db.products, id)
    case None => Status(NotFound)
    case Some(p) => Content(p)
  }

  // ---------------------------------------------------------------------
  // Product options

  /** `POST /products/{productId}/options`. Only the product identifier of
      the body is checked, and there is no handler around the service
      call. */
  function CreateOption(db: Db, productId: Guid, option: Option<ProductOption>, newId: Guid): (r: Reply<()>)
    ensures r.db.products == db.products
    ensures option.None? ==> r == Reply(Uncaught(NullReference), db)
    ensures option.Some? && option.value.productId != productId ==> r == Reply(Status(BadRequest), db)
    ensures option.Some? && option.value.productId == productId && HasKey(db.options, OptionKey, option.value.id) ==>
      r == Reply(Uncaught(OS.DuplicateOption), db)
    ensures option.Some? && option.value.productId == productId && !HasKey(db.options, OptionKey, option.value.id) ==>
      && r.response == Status(NoContent)
      && |r.db.options| == |db.options| + 1
      && r.db.options[..|db.options|] == db.options
      && r.db.options[|db.options|].productId == productId
      && r.db.options[|db.options|] == option.value.(id := OS.StoredId(option.value, newId))
    ensures Valid(db) && !HasKey(db.options, OptionKey, newId) ==> Valid(r.db)
  {
    match option
    case None => Reply(Uncaught(NullReference), db)
    case Some(o) =>
      if o.productId != productId then Reply(Status(BadRequest), db)
      else
        var step := OS.Create(db.options, o, newId);
        OS.CreateKeepsUniqueIds(db.options, o, newId);
        Reply(Unguarded(step.status), db.(options := step.store))
  }

  /** `PUT /products/{productId}/options/{id}`. */
  function UpdateOption(db: Db, productId: Guid, id: Guid, option: Option<ProductOption>): (r: Reply<()>)
    ensures r.db.products == db.products
    ensures option.None? ==> r == Reply(Uncaught(NullReference), db)
    ensures option.Some? && (option.value.productId != productId || option.value.id != id) ==>
      r == Reply(Status(BadRequest), db)
    ensures option.Some? && option.value.productId == productId && option.value.id == id
            && !HasKey(db.options, OptionKey, id) ==>
      r == Reply(Status(BadRequest), db)
    ensures option.Some? && option.value.productId == productId && option.value.id == id
            && HasKey(db.options, OptionKey, id) ==>
      && r.response == Status(NoContent)
      && OS.GetSingleOptionByProductId(r.db.options, productId, id) == Some(option.value)
      && |r.db.options| == |db.options|
      && (forall j :: 0 <= j < |db.options| && db.options[j].id != id ==> r.db.options[j] == db.options[j])
    ensures Valid(db) ==> Valid(r.db)
  {
    match option
    case None => Reply(Uncaught(NullReference), db)
    case Some(o) =>
      if o.productId != productId || o.id != id then Reply(Status(BadRequest), db)
      else
        var step := OS.Update(db.options, o);
        OS.UpdateKeepsUniqueIds(db.options, o);
        OS.UpdateThenGet(db.options, o);
        Reply(Catching(step.status, BadRequest), db.(options := step.store))
  }

  /** `DELETE /products/{productId}/options/{id}`. The action binds only the
      option identifier, so the option is deleted whatever product it
      belongs to. */
  function DeleteOptionById(db: Db, id: Guid): (r: Reply<()>)
    ensures r.db.products == db.products
    ensures !HasKey(db.options, OptionKey, id) ==> r == Reply(Status(NotFound), db)
    ensures HasKey(db.options, OptionKey, id) ==>
      && r.response == Status(NoContent)
      && |r.db.options| == |db.options| - 1
      && r.db.options == db.options[..IndexOf(db.options, OptionKey, id).value]
                         + db.options[IndexOf(db.options, OptionKey, id).value + 1..]
      && multiset(r.db.options) + multiset{Find(db.options, OptionKey, id).value} == multiset(db.options)
    ensures HasKey(db.options, OptionKey, id) && Valid(db) ==>
      Valid(r.db) && !HasKey(r.db.options, OptionKey, id)
  {
    var step := OS.DeleteById(db.options, id);
    Reply(Catching(step.status, NotFound), db.(options := step.store))
  }

  /** `GET /products/{productId}/options`. */
  function GetOptions(db: Db, productId: Guid): (r: Response<seq<ProductOption>>)
    ensures r.Content?
    ensures forall i :: 0 <= i < |db.options| ==>
      (db.options[i] in r.value <==> db.options[i].productId == productId)
    ensures forall i :: 0 <= i < |r.value| ==> r.value[i] in db.options
    ensures Seqs.IsSubsequence(r.value, db.options)
  {
    Content(OS.GetOptionsByProductId(db.options, productId))
  }

  /** `GET /products/{productId}/options/{id}`. */
  function GetOptionById(db: Db, productId: Guid, id: Guid): (r: Response<ProductOption>)
    ensures r.Content? || r == Status(NotFound)
    ensures r == Status(NotFound) <==>
      forall j :: 0 <= j < |db.options| ==> !(db.options[j].id == id && db.options[j].productId == productId)
    ensures r.Content? ==> r.value in db.options && r.value.id == id && r.value.productId == productId
  {
    match OS.GetSingleOptionByProductId(db.options, productId, id)
    case None => Status(NotFound)
    case Some(o) => Content(o)
  }

  // ---------------------------------------------------------------------
  // Properties across endpoints.

  /** A missing option is reported differently by the two endpoints that
      look it up: the update answers 400, the delete 404. */
  lemma MissingOptionStatusesDiffer(db: Db, productId: Guid, id: Guid, option: ProductOption)
    requires !HasKey(db.options, OptionKey, id)
    requires option.productId == productId && option.id == id
    ensures UpdateOption(db, productId, id, Some(option)).response.code.Number() == 400
    ensures DeleteOptionById(db, id).response.code.Number() == 404
  {
  }

  /** Deleting a missing product escapes the controller's handler as
      written, because the service raises a plain exception; the corrected
      service raises `GlobalException` and the controller answers 400. */
  lemma DeleteMissingProductEscapesHandler(db: Db, id: Guid)
    requires !HasKey(db.products, ProductKey, id)
    ensures DeleteProduct(PS.AsWritten, db, id).response.Uncaught?
    ensures DeleteProduct(PS.Corrected, db, id).response.Status?
    ensures DeleteProduct(PS.Corrected, db, id).response.code.Number() == 400
  {
  }

  /** Deleting product `a` from a store holding products `a` and `b`, with
      two options of `a` around one option of `b`, leaves `b` and its
      option only. */
  lemma DeleteProductCascades(b: PS.Build, pa: Product, pb: Product, o1: ProductOption, o2: ProductOption, o3: ProductOption)
    requires pa.id != pb.id
    requires o1.productId == pa.id && o2.productId == pb.id && o3.productId == pa.id
    ensures DeleteProduct(b, Db([pa, pb], [o1, o2, o3]), pa.id) == Reply(Status(NoContent), Db([pb], [o2]))
  {
    var t := [pa, pb];
    assert ProductKey(t[0]) == pa.id;
    assert IndexOf(t, ProductKey, pa.id) == Some(0);
    assert t[..0] + t[1..] == [pb];
    var options := [o1, o2, o3];
    var keep := OS.NotOfProduct(pa.id);
    assert Seqs.Filter(options[2..], keep) == [] by {
      assert options[2..][1..] == [];
    }
    assert Seqs.Filter(options[1..], keep) == [o2] by {
      assert options[1..][1..] == options[2..];
    }
  }
}

=== FILE: seqs.dfy ===
/** Sequence operations the store and the services are built from: LINQ's
    `Where` and `FirstOrDefault`, and `List<T>.Remove` applied once or to
    each element of a range. */
module Seqs {
  import opened Common

  /** The elements of `s` that satisfy `p`, in their original order
      (`Where(p).ToList()`). */
  function Filter<T>(s: seq<T>, p: T -> bool): (r: seq<T>)
    ensures |r| <= |s|
    ensures forall i :: 0 <= i < |r| ==> p(r[i]) && r[i] in s
    ensures forall i :: 0 <= i < |s| && p(s[i]) ==> s[i] in r
    decreases |s|
  {
    if |s| == 0 then []
    else if p(s[0]) then [s[0]] + Filter(s[1..], p)
    else Filter(s[1..], p)
  }

  /** `r` is obtained from `s` by deleting elements, keeping the order of
      the rest. */
  ghost predicate IsSubsequence<T>(r: seq<T>, s: seq<T>)
    decreases |s|
  {
    |r| == 0
    || (|s| > 0
        && ((r[0] == s[0] && IsSubsequence(r[1..], s[1..])) || IsSubsequence(r, s[1..])))
  }

  lemma {:induction false} FilterIsSubsequence<T>(s: seq<T>, p: T -> bool)
    ensures IsSubsequence(Filter(s, p), s)
    decreases |s|
  {
    if |s| > 0 {
      FilterIsSubsequence(s[1..], p);
      if p(s[0]) {
        var r := Filter(s, p);
        assert r[0] == s[0] && r[1..] == Filter(s[1..], p);
      }
    }
  }

  /** Filtering distributes over concatenation: the filter keeps each
      element or drops it on its own, independently of its neighbours. */
  lemma {:induction false} FilterAppend<T>(a: seq<T>, b: seq<T>, p: T -> bool)
    ensures Filter(a + b, p) == Filter(a, p) + Filter(b, p)
    decreases |a|
  {
    if |a| == 0 {
      assert a + b == b;
    } else {
      assert (a + b)[0] == a[0];
      assert (a + b)[1..] == a[1..] + b;
      FilterAppend(a[1..], b, p);
    }
  }

  lemma {:induction false} FilterIdempotent<T>(s: seq<T>, p: T -> bool)
    ensures Filter(Filter(s, p), p) == Filter(s, p)
    decreases |s|
  {
    if |s| > 0 {
      FilterIdempotent(s[1..], p);
      if p(s[0]) {
        var r := Filter(s, p);
        assert r[0] == s[0] && r[1..] == Filter(s[1..], p);
      }
    }
  }

  lemma {:induction false} FilterNone<T>(s: seq<T>, p: T -> bool)
    requires forall i :: 0 <= i < |s| ==> !p(s[i])
    ensures Filter(s, p) == []
    decreases |s|
  {
    if |s| > 0 {
      FilterNone(s[1..], p);
    }
  }

  lemma {:induction false} FilterAll<T>(s: seq<T>, p: T -> bool)
    requires forall i :: 0 <= i < |s| ==> p(s[i])
    ensures Filter(s, p) == s
    decreases |s|
  {
    if |s| > 0 {
      FilterAll(s[1..], p);
    }
  }

  /** Filters by predicates that agree on every element agree. */
  lemma {:induction false} FilterCongruent<T>(s: seq<T>, p: T -> bool, q: T -> bool)
    requires forall i :: 0 <= i < |s| ==> p(s[i]) == q(s[i])
    ensures Filter(s, p) == Filter(s, q)
    decreases |s|
  {
    if |s| > 0 {
      FilterCongruent(s[1..], p, q);
    }
  }

  /** A filter and its complement split `s`: together they keep every
      element exactly once. */
  lemma {:induction false} FilterComplementSizes<T>(s: seq<T>, p: T -> bool, q: T -> bool)
    requires forall x :: q(x) == !p(x)
    ensures |Filter(s, p)| + |Filter(s, q)| == |s|
    decreases |s|
  {
    if |s| > 0 {
      FilterComplementSizes(s[1..], p, q);
    }
  }

  /** Position of the first element satisfying `p` (`FirstOrDefault(p)`). */
  function FirstIndex<T>(s: seq<T>, p: T -> bool): (r: Option<nat>)
    ensures r.Some? ==> r.value < |s| && p(s[r.value])
    ensures r.Some? ==> forall j :: 0 <= j < r.value ==> !p(s[j])
    ensures r.None? <==> forall j :: 0 <= j < |s| ==> !p(s[j])
    decreases |s|
  {
    if |s| == 0 then None
    else if p(s[0]) then Some(0)
    else match FirstIndex(s[1..], p)
      case None => None
      case Some(i) => Some(i + 1)
  }

  /** `List<T>.Remove(x)`: deletes the first element equal to `x`, if any. */
  function RemoveFirst<T(==)>(s: seq<T>, x: T): (r: seq<T>)
    ensures x in s ==> |r| == |s| - 1
    ensures x !in s ==> r == s
    decreases |s|
  {
    if |s| == 0 then []
    else
      assert s == [s[0]] + s[1..];
      if s[0] == x then s[1..]
      else [s[0]] + RemoveFirst(s[1..], x)
  }

  /** When nothing before position `i` equals `s[i]`, removing the value
      `s[i]` removes exactly that position. */
  lemma {:induction false} RemoveFirstAt<T>(s: seq<T>, i: nat)
    requires i < |s|
    requires forall j :: 0 <= j < i ==> s[j] != s[i]
    ensures RemoveFirst(s, s[i]) == s[..i] + s[i + 1..]
    decreases i
  {
    if i == 0 {
      assert s[..0] + s[1..] == s[1..];
    } else {
      var t := s[1..];
      assert t[i - 1] == s[i];
      forall j | 0 <= j < i - 1
        ensures t[j] != t[i - 1]
      {
        assert t[j] == s[j + 1];
      }
      RemoveFirstAt(t, i - 1);
      calc {
        RemoveFirst(s, s[i]);
        { assert s[0] != s[i]; }
        [s[0]] + RemoveFirst(t, s[i]);
        [s[0]] + (t[..i - 1] + t[i..]);
        { assert s[..i] == [s[0]] + t[..i - 1]; assert t[i..] == s[i + 1..]; }
        s[..i] + s[i + 1..];
      }
    }
  }

  /** `RemoveRange(xs)` as the test double performs it: `Remove` of each
      element of `xs` in turn. */
  function RemoveEach<T(==)>(s: seq<T>, xs: seq<T>): seq<T>
    decreases |xs|
  {
    if |xs| == 0 then s
    else RemoveEach(RemoveFirst(s, xs[0]), xs[1..])
  }

  /** Removing values that differ from the head leaves the head in place. */
  lemma {:induction false} RemoveEachKeepsHead<T>(a: T, s: seq<T>, xs: seq<T>)
    requires forall j :: 0 <= j < |xs| ==> xs[j] != a
    ensures RemoveEach([a] + s, xs) == [a] + RemoveEach(s, xs)
    decreases |xs|
  {
    if |xs| > 0 {
      assert ([a] + s)[1..] == s;
      assert RemoveFirst([a] + s, xs[0]) == [a] + RemoveFirst(s, xs[0]);
      RemoveEachKeepsHead(a, RemoveFirst(s, xs[0]), xs[1..]);
    }
  }

  /** Removing, one by one, every element that satisfies `p` leaves exactly
      the elements that satisfy its complement, in their original order. */
  lemma {:induction false} RemoveEachOfFilter<T>(s: seq<T>, p: T -> bool, q: T -> bool)
    requires forall x :: q(x) == !p(x)
    ensures RemoveEach(s, Filter(s, p)) == Filter(s, q)
    decreases |s|
  {
    if |s| > 0 {
      var a, rest := s[0], s[1..];
      assert s == [a] + rest;
      RemoveEachOfFilter(rest, p, q);
      var f := Filter(rest, p);
      if p(a) {
        var xs := Filter(s, p);
        assert xs == [a] + f;
        assert xs[0] == a && xs[1..] == f;
        assert RemoveFirst(s, a) == rest;
      } else {
        assert Filter(s, p) == f;
        forall j | 0 <= j < |f|
          ensures f[j] != a
        {
          assert p(f[j]);
        }
        RemoveEachKeepsHead(a, rest, f);
      }
    }
  }
}

=== FILE: text.dfy ===
/** The string operations of the name search: `ToLower()` and ordinal
    `Contains`. Lower-casing is the invariant-culture mapping restricted to
    ASCII: 'A'..'Z' become 'a'..'z' and every other character is kept. */
module Text {

  function LowerChar(c: char): (r: char)
    ensures 'A' <= c <= 'Z' ==> r as int == c as int + 32
    ensures !('A' <= c <= 'Z') ==> r == c
  {
    if 'A' <= c <= 'Z' then (c as int + 32) as char else c
  }

  /** `s.ToLower()`. */
  function Lower(s: string): (r: string)
    ensures |r| == |s|
    ensures forall i :: 0 <= i < |s| ==> r[i] == LowerChar(s[i])
    decreases |s|
  {
    if |s| == 0 then "" else [LowerChar(s[0])] + Lower(s[1..])
  }

  lemma LowerIdempotent(s: string)
    ensures Lower(Lower(s)) == Lower(s)
  {
  }

  predicate StartsWith(s: string, q: string)
  {
    |q| <= |s| && s[..|q|] == q
  }

  /** `s.Contains(q)`: `q` occurs somewhere in `s`. */
  predicate Contains(s: string, q: string)
    decreases |s|
  {
    StartsWith(s, q) || (|s| > 0 && Contains(s[1..], q))
  }

  /** `q` occurs in `s` starting at position `i`. */
  ghost predicate OccursAt(s: string, q: string, i: int)
  {
    0 <= i && i + |q| <= |s| && s[i..i + |q|] == q
  }

  /** The scan `Contains` performs finds an occurrence exactly when one
      exists. */
  lemma {:induction false} ContainsIffOccurs(s: string, q: string)
    ensures Contains(s, q) <==> exists i :: OccursAt(s, q, i)
    decreases |s|
  {
    if |s| > 0 {
      ContainsIffOccurs(s[1..], q);
      if i :| OccursAt(s[1..], q, i) {
        assert s[1..][i..i + |q|] == s[i + 1..i + 1 + |q|];
        assert OccursAt(s, q, i + 1);
      }
      if i :| OccursAt(s, q, i) {
        if i > 0 {
          assert s[1..][i - 1..i - 1 + |q|] == s[i..i + |q|];
          assert OccursAt(s[1..], q, i - 1);
        }
      }
    } else {
      if i :| OccursAt(s, q, i) {
        assert |q| == 0 && i == 0;
      }
    }
    if StartsWith(s, q) {
      assert OccursAt(s, q, 0);
    }
  }

  /** The search condition `name.ToLower().Contains(query.ToLower())`. */
  predicate ContainsIgnoringCase(name: string, query: string)
  {
    Contains(Lower(name), Lower(query))
  }

  /** Every string contains the empty string. */
  lemma ContainsEmpty(s: string)
    ensures ContainsIgnoringCase(s, "")
  {
  }
}
